=== FILE: README.md ===
# Profile-data export guard

A Dafny model of the personal-data export plugin of the Talk comment platform
(`plugins/talk-plugin-profile-data/server/mutators.js`). The plugin exposes two
operations on a user:

- **`requestDownloadLink`** (`sendDownloadLink`): a user asks for a link to an
  archive of their data. The request runs a fixed chain of guards. First it does a
  cheap read of the rate limiter (`profileDataDownloadLimiter`, one attempt per seven
  days). Then it compares the user's durable `lastAccountDownload` timestamp against
  a seven-day window. Then it makes the limiter's atomic claim `test`. After that it
  issues the links, mails the landing link, and stamps `lastAccountDownload`.
- **`download`**: only a caller with role `ADMIN` gets the direct file URL for a user
  (`downloadUser`). Every other caller is refused with `ErrNotAuthorized`, and so is
  a request with no user.

Both build their URLs with `generateDownloadLinks`. It signs one token and places it
in the fragment of the landing URL (`account/download`) and in the `token` query
parameter of the file URL (`api/v1/account/download`).

Files:

- `wrappers.dfy` — `Option`, `Result`, `Outcome`.
- `links.dfy` — module `Links`. URLs as structured values, with the `hash` setter and
  getter and the `searchParams.set`/`get`/`getAll` semantics. Token claims and
  `GenerateDownloadLinks`.
- `profile_data.dfy` — module `ProfileData`. The export state (`lastAccountDownload`
  per user, limiter attempts per user, a log of effects), `RequestDownloadLink`,
  `Download`, and runs of operations (`Apply`, `Run`).
- `profile_data_proofs.dfy` — module `ProfileDataProofs`. The guard properties of one
  request, the order of its effects, and invariants over any run of operations.

How collaborators are modelled:

- **Clock.** Each request reads two times. `checkedAt` is the `moment()` of the
  durable check. `now` is the `new Date()` taken right after the claim. Both are
  integer milliseconds.
- **Rate limiter.** `get` reads the attempts map; a missing key reads as no attempts.
  The outcome of `test` is an input of the request, because the claim can lose a race
  against another process. A refused claim's error is passed on unchanged. A granted
  claim records one more attempt. The limiter's window running out (or its record
  being evicted) is an operation of its own, `LimiterExpiry`.
- **Signer, settings store, mailer, user store.** The signer is a function from claims
  to a token or a failure. `uuid` is an input. `Settings.load`, `Users.sendEmail` and
  `User.update` are success-or-failure inputs. A collaborator failure surfaces as
  `External(cause)`.

Behaviour of the code the model keeps:

- `download` checks the `ADMIN` role itself, before any link is generated.
- A signer failure is passed on as its own cause (`External(cause)`); there is no dedicated signing error.
- The durable check refuses only when the last download plus seven days is strictly after the check time.

## Model

| member | source | states |
|---|---|---|
| Links.WithHash | plugins/talk-plugin-profile-data/server/mutators.js:19-20 | Setting the landing URL's hash changes only the fragment. An empty value removes the fragment. The `hash` getter then returns '#' followed by the value with one leading '#' dropped, or the empty string when that is empty. |
| Links.HashRoundTrip | plugins/talk-plugin-profile-data/server/mutators.js:20 | Setting the hash to what the getter reads gives back the same URL, unless the fragment was present but empty. |
| Links.SetParam | plugins/talk-plugin-profile-data/server/mutators.js:23-24 | After `searchParams.set('token', t)`, `token` has exactly the one value `t` and `get` returns it. Every other parameter keeps its values in order. A name that was absent is appended. A name that was present keeps one pair, so the query shrinks by the number of its values less one. |
| Links.GenerateDownloadLinks | plugins/talk-plugin-profile-data/server/mutators.js:9-30 | A signer failure is returned as is. Otherwise both URLs are resolved against the base on their own paths. The file URL's query is exactly `token=<token>` with no fragment, and `get('token')` reads the token. The landing URL has no query, and its fragment is the token whenever the token is non-empty and does not start with '#', as every JWT is. |
| Links.SameTokenInBothLinks | plugins/talk-plugin-profile-data/server/mutators.js:13-28 | For a token the `hash` setter keeps as is, both links from one call read back the same token: the signer's token for the user's download claims. |
| ProfileData.RequestDownloadLink | plugins/talk-plugin-profile-data/server/mutators.js:32-88 | A request only appends to the effect log, and adds at most three effects. It succeeds exactly when it adds all three. It changes state only when a user asked, the limiter read no attempts and the claim was granted; then the limiter holds one attempt. `lastAccountDownload` changes only on success, and only to `now`. Other users are untouched. A request with no user gives `MissingUser` with the state unchanged. The durable check reads the same field the request writes. |
| ProfileData.AfterClaim | plugins/talk-plugin-profile-data/server/mutators.js:63-87 | After the claim, nothing touches the limiter. Any effect at all means the links, settings and mail succeeded, and the first effect is the mail to the user with the `download` template, the generated landing link, the organisation name and `now`. Success adds exactly two effects, the second being the timestamp `now` for the user, and sets `lastAccountDownload` to `now`. Any failure leaves `lastAccountDownload` unchanged. The collaborators are called in the source's order, signer, settings, mailer, update, and the first to fail gives the outcome `External` of its own cause. A signer, settings or mail failure adds no effect. A failed update comes after the mail, so the mail stays in the log. |
| ProfileData.RequestDownloadLinkAsWritten | plugins/talk-plugin-profile-data/server/mutators.js:50-87 | With the durable check reading the user document's top-level `lastAccountDownload` and the request writing `metadata.lastAccountDownload`, the written field still changes only on success, and only to `now`, for the requesting user. |
| ProfileData.Download | plugins/talk-plugin-profile-data/server/mutators.js:92-105 | The answer is `NotAuthorized` exactly when the caller is missing or not `ADMIN`. An administrator succeeds exactly when signing succeeds, and gets the file URL carrying the token signed for `userID`. When signing fails, an administrator gets `External` of the signer's own cause. The limiter and user documents are not inputs. |
| ProfileDataProofs.LimiterShortCircuit | plugins/talk-plugin-profile-data/server/mutators.js:45-48 | One or more recorded attempts gives `MaxRateLimit`, with the state unchanged: no claim, no mail, no stamp. |
| ProfileDataProofs.DurableGuardRejects | plugins/talk-plugin-profile-data/server/mutators.js:51-58 | With no recorded attempts, a last download whose window ends strictly after the check time gives `MaxRateLimit` before any claim, with the state unchanged. |
| ProfileDataProofs.DurableGuardBoundary | plugins/talk-plugin-profile-data/server/mutators.js:51-63 | A check exactly seven days after the last download passes the durable guard, because `isAfter` is strict. The request reaches the claim: a refused claim's own error is returned, and a granted claim is recorded. |
| ProfileDataProofs.ClaimFailurePropagates | plugins/talk-plugin-profile-data/server/mutators.js:60-63 | A refused claim's error propagates unchanged, and nothing else happens: no links, no mail, no stamp. |
| ProfileDataProofs.SuccessCharacterised | plugins/talk-plugin-profile-data/server/mutators.js:45-87 | A request succeeds if and only if both guards pass and the claim, signer, settings, mailer and update all succeed. Then the limiter holds exactly one attempt and `lastAccountDownload` equals the time taken after the claim. |
| ProfileDataProofs.FailureCauses | plugins/talk-plugin-profile-data/server/mutators.js:32-88 | Every failure is one of four kinds. A missing user or `MaxRateLimit` leaves the state unchanged, as does the claim's own error. A collaborator failure comes after a granted claim, which stays recorded. A missing user always gives `MissingUser` with the state unchanged, and `MissingUser` comes from nothing else but a claim that fails with that error. |
| ProfileDataProofs.EmailFailureKeepsClaim | plugins/talk-plugin-profile-data/server/mutators.js:72-87 | If the mail fails, that failure is returned. The claim stays consumed, `lastAccountDownload` is unchanged, and the only effect is the claim. |
| ProfileDataProofs.UpdateFailureKeepsMail | plugins/talk-plugin-profile-data/server/mutators.js:72-87 | If the user update fails after the mail was sent, the update's own failure is returned. The claim stays consumed, `lastAccountDownload` is unchanged, and the effects are the claim and the mail of the generated landing link. |
| ProfileDataProofs.EffectOrder | plugins/talk-plugin-profile-data/server/mutators.js:63-87 | A request has at most three effects, and they are a prefix of a fixed order. The claim comes first. The mail follows, and it is exactly the mail of the landing link generated for the user, with the organisation name and `now`. The timestamp `now` for the user comes last. |
| ProfileDataProofs.MailedLandingLinkCarriesToken | plugins/talk-plugin-profile-data/server/mutators.js:12-81 | A request that mailed has had its token signed and the settings loaded. The mail goes to the user with the `download` template, the organisation name and `now`. Its landing link is the landing path of the base URL with no query, and its fragment is the signer's token for the user's download claims, for every token that does not start with '#'. |
| ProfileDataProofs.SecondRequestRejected | plugins/talk-plugin-profile-data/server/mutators.js:41-48 | Right after a success, the same user's next request gets `MaxRateLimit` with the state unchanged, whatever that request's inputs. |
| ProfileDataProofs.SecondRequestRejectedAfterExpiry | plugins/talk-plugin-profile-data/server/mutators.js:50-58 | Even after the limiter forgets the claim, a second request checked within seven days of the first one's `now` gets `MaxRateLimit`. This holds with the field the check reads identified with the field the request writes; see Findings. |
| ProfileDataProofs.DownloadGate | plugins/talk-plugin-profile-data/server/mutators.js:92-105 | Non-administrators, and a request with no user, get `NotAuthorized`. An administrator with a successful signer gets exactly the file link that `generateDownloadLinks` builds for `userID`. |
| ProfileDataProofs.RequestStep | plugins/talk-plugin-profile-data/server/mutators.js:45-87 | For any one user, one request adds at most one claim, at most as many mails as claims, and at most as many stamps as mails. New claims match new limiter attempts. A user with attempts gets no new one. A new stamp is `now`, was allowed by the durable check, and is stored in the field. |
| ProfileDataProofs.AtMostOneClaimPerWindow | plugins/talk-plugin-profile-data/server/mutators.js:41-63 | In any run where the user's limiter window does not run out, the user's attempts never exceed one. Every claim in the log is counted by the limiter, so from zero attempts at most one claim is made. |
| ProfileDataProofs.EffectsStayOrdered | plugins/talk-plugin-profile-data/server/mutators.js:63-87 | Over any run, a user never has more mails than claims, and never more timestamps than mails. |
| ProfileDataProofs.StampsWindowApart | plugins/talk-plugin-profile-data/server/mutators.js:50-87 | Over any run, including runs where the limiter forgets its counts, a user's timestamps are at least seven days apart. The stored field holds the latest of them. This assumes the clock does not run backwards within one request, and that the field the durable check reads is the one the request writes; see Findings. |
| ProfileDataProofs.AsWrittenSecondExportWithinWindow | plugins/talk-plugin-profile-data/server/mutators.js:51-87 | Read literally, a user with no top-level `lastAccountDownload` exports at time 0; once the limiter forgets, a second export at 1 ms also succeeds, while the model with the fields identified refuses it with `MaxRateLimit`. |

## Left out

- The rate limiter's implementation (`Limit`, the counter store's atomic increment with expiry) is not part of this model. So is any concurrency. A claim that loses a race is an input outcome, and a window that runs out is the `LimiterExpiry` operation, which may happen at any time.
- Failures of the limiter's `get` are not modelled. The read always returns the stored count.
- In the source, `attempts && attempts >= 1` also accepts a count that the store returns as text. The model reads a natural number, where the test is `attempts >= 1`.
- `moment` calendar arithmetic is not modelled. "Add 7 days" is a fixed 604,800,000 ms, so daylight-saving shifts are left out.
- JWT signing and `uuid` are foreign calls. The token is the opaque result of a signer function over the claims (`user`, `jwtid`, `expiresIn` of one day, the download-link subject). The value of the `DOWNLOAD_LINK_SUBJECT` constant is in a constants file that is not part of this model, so the purpose is an enumeration.
- The WHATWG `URL` class is modelled only in part. Relative-path resolution against `BASE_URL`, percent-encoding and `href` serialisation are left out. A URL is kept as base, path, query pairs and fragment.
- `Settings.load`, `Users.sendEmail` and `User.update` are I/O. Each is a success-or-failure input (`organization`, `email`, `update`).
- `I18n.t` builds the mail subject, which is not modelled. It is evaluated as an argument of `Users.sendEmail`, so a failure there has the same effect as a failed mail (`email`).
- A request with no user in the context throws a `TypeError` at `user.id` in the source. The model returns the `MissingUser` error instead, with no effects.
- The source reads `user.lastAccountDownload` but writes `metadata.lastAccountDownload`. The user model that might connect the two is not part of this model. `RequestDownloadLink` treats them as one field, and `RequestDownloadLinkAsWritten` keeps them apart (see Findings).
- Moderation actions (`src/core/server/graph/tenant/mutators/Actions.ts`) only forward to a moderation service that is not part of this model. Nothing else in the repository is modelled.

## Findings

| source | as written | input that shows it | evidently intended | confidence | as-written member | corrected member |
|---|---|---|---|---|---|---|
| plugins/talk-plugin-profile-data/server/mutators.js:51-86 | The durable check reads `user.lastAccountDownload`, but the request writes `metadata.lastAccountDownload`, so the check never sees a stamp this plugin writes. | A user with no top-level `lastAccountDownload` exports at time 0; the limiter's record is evicted; a second request at 1 ms passes every guard and mails a second link. | The check reads the field the request writes, so a second export within seven days is refused even after the limiter forgets. | plausible, not executed: a user model that maps the top-level field onto `metadata` would make this a non-issue, and that model is not part of this one | ProfileDataProofs.AsWrittenSecondExportWithinWindow | ProfileDataProofs.SecondRequestRejectedAfterExpiry |

=== FILE: links.dfy ===
/** The signed download links of the profile-data export: one token, issued for a user,
    carried in the fragment of a landing URL (for a person to open) and in the `token`
    query parameter of a file URL (for the API to fetch the archive).

    A URL is kept as a structured value: the base it was resolved against, the relative
    path, the ordered query pairs and the optional fragment. Relative-path resolution,
    percent-encoding and `href` serialisation belong to the URL library and are not
    modelled. The token is opaque: whatever the signer returns for the claims. */
module Links {
  import opened Wrappers

  type UserId = string
  type Token = string

  /** Lifetime of a download token: `expiresIn: '1d'`, in seconds. */
  const TokenLifetimeSeconds: nat := 24 * 60 * 60

  /** Path of the page the user lands on, relative to the base URL. */
  const LandingPath: string := "account/download"

  /** Path of the API endpoint that streams the archive, relative to the base URL. */
  const FilePath: string := "api/v1/account/download"

  /** Name of the query parameter that carries the token on the file URL. */
  const TokenParam: string := "token"

  /** The purpose a download token is scoped to (the token's `sub` claim). */
  datatype Purpose = DownloadLinkSubject

  /** What the signer is asked to sign: the `user` payload and the `jwtid`,
      `expiresIn` and `subject` options. */
  datatype Claims = Claims(user: UserId, jwtid: string, expiresInSeconds: nat, subject: Purpose)

  /** The JWT signer: it either returns a token for the claims or fails with a cause. */
  type Signer = Claims -> Result<Token, string>

  datatype Url = Url(base: string, path: string, query: seq<(string, string)>, fragment: Option<string>)

  datatype DownloadLinks = DownloadLinks(landing: Url, file: Url)

  /** `new URL(path, base)`: a fresh URL with no query and no fragment. */
  function Resolve(base: string, path: string): Url
  {
    Url(base, path, [], None)
  }

  /** The value the `hash` setter stores: one leading '#' is dropped. */
  function StripHash(value: string): string
  {
    if |value| > 0 && value[0] == '#' then value[1..] else value
  }

  /** The `hash` getter: empty when there is no fragment or it is empty, else '#' and the fragment. */
  function HashOf(u: Url): string
  {
    match u.fragment
    case None => ""
    case Some(f) => if f == "" then "" else "#" + f
  }

  /** The `hash` setter: an empty value removes the fragment; any other value, with one
      leading '#' dropped, becomes the fragment. Nothing else in the URL changes. */
  function WithHash(u: Url, value: string): (r: Url)
    ensures r.(fragment := u.fragment) == u
    ensures HashOf(r) == (if StripHash(value) == "" then "" else "#" + StripHash(value))
    ensures value == "" <==> r.fragment == None
  {
    u.(fragment := if value == "" then None else Some(StripHash(value)))
  }

  /** `searchParams.getAll(name)`: the values paired with `name`, in order. */
  function ParamValues(q: seq<(string, string)>, name: string): seq<string>
  {
    if q == [] then []
    else if q[0].0 == name then [q[0].1] + ParamValues(q[1..], name)
    else ParamValues(q[1..], name)
  }

  /** `searchParams.get(name)`: the first value paired with `name`, if any. */
  function ParamGet(q: seq<(string, string)>, name: string): Option<string>
  {
    var vs := ParamValues(q, name);
    if vs == [] then None else Some(vs[0])
  }

  /** Drops every pair named `name` and keeps the others in order. */
  function RemoveParam(q: seq<(string, string)>, name: string): (r: seq<(string, string)>)
    ensures ParamValues(r, name) == []
    ensures forall n :: n != name ==> ParamValues(r, n) == ParamValues(q, n)
    ensures |r| + |ParamValues(q, name)| == |q|
  {
    if q == [] then []
    else if q[0].0 == name then RemoveParam(q[1..], name)
    else [q[0]] + RemoveParam(q[1..], name)
  }

  /** Gives the first pair named `name` the new value in place and drops the later ones. */
  function ReplaceFirst(q: seq<(string, string)>, name: string, value: string): (r: seq<(string, string)>)
    requires ParamValues(q, name) != []
    ensures ParamValues(r, name) == [value]
    ensures forall n :: n != name ==> ParamValues(r, n) == ParamValues(q, n)
    ensures |r| + |ParamValues(q, name)| == |q| + 1
  {
    if q[0].0 == name then [(name, value)] + RemoveParam(q[1..], name)
    else [q[0]] + ReplaceFirst(q[1..], name, value)
  }

  /** `searchParams.set(name, value)`: afterwards `name` has exactly the one value `value`,
      every other name keeps its values, and a name not present before is appended. */
  function SetParam(q: seq<(string, string)>, name: string, value: string): (r: seq<(string, string)>)
    ensures ParamValues(r, name) == [value]
    ensures ParamGet(r, name) == Some(value)
    ensures forall n :: n != name ==> ParamValues(r, n) == ParamValues(q, n)
    ensures ParamValues(q, name) == [] ==> r == q + [(name, value)]
    ensures ParamValues(q, name) != [] ==> |r| == |q| - |ParamValues(q, name)| + 1
  {
    if ParamValues(q, name) == [] then
      AppendParamValues(q, [(name, value)]);
      assert forall n :: ParamValues([(name, value)], n) == if n == name then [value] else [] by {
        assert [(name, value)][1..] == [];
      }
      q + [(name, value)]
    else
      ReplaceFirst(q, name, value)
  }

  /** getAll distributes over concatenation of query lists. */
  lemma {:induction false} AppendParamValues(a: seq<(string, string)>, b: seq<(string, string)>)
    ensures forall n :: ParamValues(a + b, n) == ParamValues(a, n) + ParamValues(b, n)
  {
    if a == [] {
      assert a + b == b;
    } else {
      AppendParamValues(a[1..], b);
      assert (a + b)[1..] == a[1..] + b;
      forall n ensures ParamValues(a + b, n) == ParamValues(a, n) + ParamValues(b, n) {
        assert (a + b)[0] == a[0];
      }
    }
  }

  /** The claims signed for a user's download token. */
  function DownloadClaims(userID: UserId, jwtid: string): Claims
  {
    Claims(userID, jwtid, TokenLifetimeSeconds, DownloadLinkSubject)
  }

  /** The token the landing URL carries, read back from its fragment. */
  function LandingToken(links: DownloadLinks): Option<Token>
  {
    links.landing.fragment
  }

  /** The token the file URL carries, read back from its `token` query parameter. */
  function FileToken(links: DownloadLinks): Option<Token>
  {
    ParamGet(links.file.query, TokenParam)
  }

  /** A token survives the `hash` setter unchanged: it is non-empty and does not start
      with '#' (a signed JWT is base64url text, so it always is). */
  predicate FragmentSafe(t: Token)
  {
    t != "" && t[0] != '#'
  }

  /** Signs one token for `userID` and places it in both links. A signer failure is
      returned as is; on success both links carry that one token, the file URL carries
      nothing else in its query, and the landing URL's fragment is the token. */
  function GenerateDownloadLinks(base: string, userID: UserId, jwtid: string, sign: Signer)
    : (r: Result<DownloadLinks, string>)
    ensures sign(DownloadClaims(userID, jwtid)).Failure? ==>
              r == Failure(sign(DownloadClaims(userID, jwtid)).error)
    ensures sign(DownloadClaims(userID, jwtid)).Success? ==>
              var token := sign(DownloadClaims(userID, jwtid)).value;
              && r.Success?
              && r.value.landing.base == base && r.value.landing.path == LandingPath
              && r.value.file.base == base && r.value.file.path == FilePath
              && r.value.landing.query == []
              && r.value.file.query == [(TokenParam, token)]
              && r.value.file.fragment == None
              && FileToken(r.value) == Some(token)
              && (FragmentSafe(token) ==> LandingToken(r.value) == Some(token))
  {
    match sign(DownloadClaims(userID, jwtid))
    case Failure(cause) => Failure(cause)
    case Success(token) =>
      var landing := WithHash(Resolve(base, LandingPath), token);
      var fileUrl := Resolve(base, FilePath);
      var file := fileUrl.(query := SetParam(fileUrl.query, TokenParam, token));
      Success(DownloadLinks(landing, file))
  }

  /** Reading the fragment back through the `hash` getter and setting it again gives the
      same URL, except for a present-but-empty fragment, which the getter cannot tell
      from an absent one. */
  lemma HashRoundTrip(u: Url)
    requires u.fragment != Some("")
    ensures WithHash(u, HashOf(u)) == u
  {
  }

  /** Both links from one call carry the same token: the signer's token for the
      download claims of `userID`. */
  lemma SameTokenInBothLinks(base: string, userID: UserId, jwtid: string, sign: Signer)
    requires sign(DownloadClaims(userID, jwtid)).Success?
    requires FragmentSafe(sign(DownloadClaims(userID, jwtid)).value)
    ensures var r := GenerateDownloadLinks(base, userID, jwtid, sign);
            && r.Success?
            && LandingToken(r.value) == FileToken(r.value) == Some(sign(DownloadClaims(userID, jwtid)).value)
  {
  }
}

=== FILE: profile_data.dfy ===
/** The profile-data export guard: a user may ask for a link to an archive of their data
    at most once per seven days, and only an administrator may fetch a user's archive
    directly.

    The collaborators become inputs or state. The rate limiter's counter is a map from
    user to attempts recorded in the current window; whether its atomic claim succeeds
    is an input of the request, because the claim can lose a race against another
    process. The user documents hold `lastAccountDownload`. The clock, the JWT signer,
    the settings store, the mailer and the user update are inputs of each request. The
    effects a request has on the outside world are appended, in order, to an event log. */
module ProfileData {
  import opened Wrappers
  import opened Links

  /** The seven-day window, in milliseconds (`moment(...).add(7, 'days')`, and the
      limiter's '7d' window). */
  const DownloadWindowMs: int := 7 * 24 * 60 * 60 * 1000

  /** The limiter allows one claim per user and window. */
  const MaxAttempts: nat := 1

  /** The role that may download another user's archive. */
  const AdminRole: string := "ADMIN"

  /** The email template the landing link is sent with. */
  const DownloadTemplate: string := "download"

  datatype Error =
    | NotAuthorized          // download asked for by a caller that is not an administrator
    | MaxRateLimit           // a download link was already requested in this window
    | MissingUser            // a link was requested with no user in the request context
    | External(cause: string) // a collaborator (signer, settings, mailer, user store) failed

  datatype User = User(id: UserId, role: string)

  datatype Email = Email(recipient: UserId, template: string, landing: Url, organizationName: string, now: int)

  /** Effects on the outside world, in the order they happened. */
  datatype Event =
    | Claimed(subject: UserId)      // the limiter recorded a claim for the user
    | EmailSent(mail: Email)        // the landing link was mailed
    | Stamped(subject: UserId, at: int) // `lastAccountDownload` was written

  datatype Kind = ClaimKind | EmailKind | StampKind

  function KindOf(e: Event): Kind
  {
    match e
    case Claimed(_) => ClaimKind
    case EmailSent(_) => EmailKind
    case Stamped(_, _) => StampKind
  }

  function SubjectOf(e: Event): UserId
  {
    match e
    case Claimed(u) => u
    case EmailSent(m) => m.recipient
    case Stamped(u, _) => u
  }

  /** `lastAccountDownload` per user (a missing key is an unset field), the limiter's
      attempts per user in the current window (a missing key reads as no attempts), and
      the log of effects. */
  datatype State = State(lastAccountDownload: map<UserId, int>, attempts: map<UserId, nat>, log: seq<Event>)

  /** Everything a link request learns from outside: the time read by the durable check,
      the limiter claim's outcome, the time taken after the claim, the token id, the
      signer, the organisation name setting, and whether the mail and the user update
      succeed. */
  datatype RequestEnv = RequestEnv(
    checkedAt: int,
    claim: Outcome<Error>,
    now: int,
    jwtid: string,
    sign: Signer,
    organization: Result<string, string>,
    email: Outcome<string>,
    update: Outcome<string>)

  datatype Step = Step(outcome: Outcome<Error>, next: State)

  /** The limiter's `get`: attempts recorded for the user, zero when there is no record. */
  function Attempts(s: State, id: UserId): nat
  {
    if id in s.attempts then s.attempts[id] else 0
  }

  function LastDownload(s: State, id: UserId): Option<int>
  {
    if id in s.lastAccountDownload then Some(s.lastAccountDownload[id]) else None
  }

  /** The durable check over a map of last-download times: the user's last download plus
      the window is strictly after time `t` (`isAfter` is strict). */
  predicate InWindow(stamps: map<UserId, int>, id: UserId, t: int)
  {
    id in stamps && stamps[id] + DownloadWindowMs > t
  }

  /** The durable check against the field the request stamps. */
  predicate WithinWindow(s: State, id: UserId, t: int)
  {
    InWindow(s.lastAccountDownload, id, t)
  }

  /** The limiter's `test` succeeded: one more attempt is recorded for the user. */
  function Claim(s: State, id: UserId): State
  {
    s.(attempts := s.attempts[id := Attempts(s, id) + 1], log := s.log + [Claimed(id)])
  }

  /** The limiter's window for the user ends (or its record is evicted): the count is gone. */
  function Expire(s: State, id: UserId): State
  {
    s.(attempts := s.attempts - {id})
  }

  /** `sendDownloadLink`: the guards in their fixed order, then the effects. */
  function RequestDownloadLink(base: string, s: State, caller: Option<User>, env: RequestEnv): (r: Step)
    ensures s.log <= r.next.log && |r.next.log| <= |s.log| + 3
    ensures r.outcome.Pass? <==> |r.next.log| == |s.log| + 3
    ensures r.next != s ==> caller.Some? && env.claim.Pass? && Attempts(s, caller.value.id) == 0
    ensures r.next != s ==> r.next.attempts == s.attempts[caller.value.id := MaxAttempts]
    ensures r.next.lastAccountDownload != s.lastAccountDownload ==>
              r.outcome.Pass? && r.next.lastAccountDownload == s.lastAccountDownload[caller.value.id := env.now]
    ensures forall id :: (caller.None? || id != caller.value.id) ==>
              Attempts(r.next, id) == Attempts(s, id) && LastDownload(r.next, id) == LastDownload(s, id)
    ensures caller.None? ==> r == Step(Fail(MissingUser), s)
  {
    SendDownloadLink(base, s, caller, env, s.lastAccountDownload)
  }

  /** The guard chain and effects of `sendDownloadLink`, with the durable check reading
      the last-download times `durable`. The request itself stamps
      `s.lastAccountDownload`; `RequestDownloadLink` makes the check read that same field. */
  function SendDownloadLink(base: string, s: State, caller: Option<User>, env: RequestEnv, durable: map<UserId, int>)
    : Step
  {
    match caller
    case None => Step(Fail(MissingUser), s)
    case Some(user) =>
      if Attempts(s, user.id) >= 1 then Step(Fail(MaxRateLimit), s)
      else if InWindow(durable, user.id, env.checkedAt) then Step(Fail(MaxRateLimit), s)
      else if env.claim.Fail? then Step(env.claim, s)
      else AfterClaim(base, Claim(s, user.id), user, env)
  }

  /** `sendDownloadLink` read literally: the durable check reads the user document's
      top-level `lastAccountDownload` (`userDocument`), while the request stamps
      `metadata.lastAccountDownload` (`s.lastAccountDownload`), so no request of this
      plugin ever changes what the check reads. */
  function RequestDownloadLinkAsWritten(base: string, s: State, caller: Option<User>, env: RequestEnv,
                                        userDocument: map<UserId, int>): (r: Step)
    ensures r.next.lastAccountDownload != s.lastAccountDownload ==>
              && caller.Some? && r.outcome.Pass?
              && r.next.lastAccountDownload == s.lastAccountDownload[caller.value.id := env.now]
  {
    SendDownloadLink(base, s, caller, env, userDocument)
  }

  /** The mail a request sends: the `download` template, to the user, with the landing
      link generated for them, the organisation name and the time taken after the claim. */
  function DownloadMail(base: string, id: UserId, env: RequestEnv): Email
    requires GenerateDownloadLinks(base, id, env.jwtid, env.sign).Success? && env.organization.Success?
  {
    Email(id, DownloadTemplate, GenerateDownloadLinks(base, id, env.jwtid, env.sign).value.landing,
          env.organization.value, env.now)
  }

  /** The steps after a successful claim: links, settings, mail, then the timestamp. A
      failure stops the request and leaves the claim in place. */
  function AfterClaim(base: string, s: State, user: User, env: RequestEnv): (r: Step)
    ensures r.next.attempts == s.attempts
    ensures s.log <= r.next.log && |r.next.log| <= |s.log| + 2
    ensures r.outcome.Pass? <==> |r.next.log| == |s.log| + 2
    ensures r.next.lastAccountDownload != s.lastAccountDownload ==> r.outcome.Pass?
    ensures r.outcome.Pass? ==> r.next.lastAccountDownload == s.lastAccountDownload[user.id := env.now]
    ensures |r.next.log| > |s.log| ==>
              && GenerateDownloadLinks(base, user.id, env.jwtid, env.sign).Success?
              && env.organization.Success?
              && env.email.Pass?
              && r.next.log[|s.log|] == EmailSent(DownloadMail(base, user.id, env))
    ensures r.outcome.Pass? ==> r.next.log[|s.log| + 1] == Stamped(user.id, env.now)
    // the collaborators are called in order, and the first to fail names the outcome
    ensures env.sign(DownloadClaims(user.id, env.jwtid)).Failure? ==>
              r == Step(Fail(External(env.sign(DownloadClaims(user.id, env.jwtid)).error)), s)
    ensures env.sign(DownloadClaims(user.id, env.jwtid)).Success? && env.organization.Failure? ==>
              r == Step(Fail(External(env.organization.error)), s)
    ensures env.sign(DownloadClaims(user.id, env.jwtid)).Success? && env.organization.Success? && env.email.Fail? ==>
              r == Step(Fail(External(env.email.error)), s)
    // a rejected update comes after the mail, which stays sent
    ensures env.sign(DownloadClaims(user.id, env.jwtid)).Success? && env.organization.Success? && env.email.Pass? && env.update.Fail? ==>
              && r.outcome == Fail(External(env.update.error))
              && r.next.log == s.log + [EmailSent(DownloadMail(base, user.id, env))]
              && r.next.lastAccountDownload == s.lastAccountDownload
  {
    match GenerateDownloadLinks(base, user.id, env.jwtid, env.sign)
    case Failure(cause) => Step(Fail(External(cause)), s)
    case Success(links) =>
      match env.organization
      case Failure(cause) => Step(Fail(External(cause)), s)
      case Success(org) =>
        match env.email
        case Fail(cause) => Step(Fail(External(cause)), s)
        case Pass =>
          var mail := Email(user.id, DownloadTemplate, links.landing, org, env.now);
          var sent := s.(log := s.log + [EmailSent(mail)]);
          match env.update
          case Fail(cause) => Step(Fail(External(cause)), sent)
          case Pass =>
            Step(Pass, sent.(lastAccountDownload := sent.lastAccountDownload[user.id := env.now],
                             log := sent.log + [Stamped(user.id, env.now)]))
  }

  predicate IsAdmin(caller: Option<User>)
  {
    caller.Some? && caller.value.role == AdminRole
  }

  /** `download`: an administrator gets the file URL for `userID`; anyone else, and a
      request with no user, is refused. The limiter and the user documents are not
      inputs: the download path never consults them. */
  function Download(base: string, caller: Option<User>, userID: UserId, jwtid: string, sign: Signer)
    : (r: Result<Url, Error>)
    ensures r == Failure(NotAuthorized) <==> !IsAdmin(caller)
    ensures r.Success? <==> IsAdmin(caller) && sign(DownloadClaims(userID, jwtid)).Success?
    ensures r.Success? ==>
              && r.value.path == FilePath
              && ParamGet(r.value.query, TokenParam) == Some(sign(DownloadClaims(userID, jwtid)).value)
    ensures IsAdmin(caller) && sign(DownloadClaims(userID, jwtid)).Failure? ==>
              r == Failure(External(sign(DownloadClaims(userID, jwtid)).error))
  {
    if !IsAdmin(caller) then Failure(NotAuthorized)
    else
      match GenerateDownloadLinks(base, userID, jwtid, sign)
      case Failure(cause) => Failure(External(cause))
      case Success(links) => Success(links.file)
  }

  /** What can happen to the export state: the two operations the plugin exposes, and the
      limiter's window running out for a user. */
  datatype Op =
    | RequestLink(caller: Option<User>, env: RequestEnv)
    | DownloadFile(caller: Option<User>, userID: UserId, jwtid: string, sign: Signer)
    | LimiterExpiry(subject: UserId)

  function Apply(base: string, s: State, op: Op): State
  {
    match op
    case RequestLink(caller, env) => RequestDownloadLink(base, s, caller, env).next
    case DownloadFile(_, _, _, _) => s
    case LimiterExpiry(id) => Expire(s, id)
  }

  /** The state after a sequence of operations, run one after another. */
  function Run(base: string, s: State, ops: seq<Op>): State
    decreases |ops|
  {
    if ops == [] then s else Run(base, Apply(base, s, ops[0]), ops[1..])
  }
}

=== FILE: profile_data_proofs.dfy ===
/** Properties of the profile-data export guard: what each guard refuses and leaves
    untouched, the order of the effects, and what holds over any run of requests. */
module ProfileDataProofs {
  import opened Wrappers
  import opened Links
  import opened ProfileData

  // ---------------------------------------------------------------------------
  // Counting the effect log

  function Indicator(e: Event, id: UserId, k: Kind): nat
  {
    if KindOf(e) == k && SubjectOf(e) == id then 1 else 0
  }

  /** How many effects of kind `k` the log records for user `id`. */
  function CountOf(log: seq<Event>, id: UserId, k: Kind): nat
  {
    if log == [] then 0 else CountOf(log[..|log| - 1], id, k) + Indicator(log[|log| - 1], id, k)
  }

  /** The times at which `lastAccountDownload` was written for user `id`, in order. */
  function StampTimes(log: seq<Event>, id: UserId): seq<int>
  {
    if log == [] then []
    else
      var e := log[|log| - 1];
      StampTimes(log[..|log| - 1], id) + (if e.Stamped? && e.subject == id then [e.at] else [])
  }

  /** Consecutive times are at least one window apart. */
  predicate Spaced(ts: seq<int>)
  {
    forall i :: 0 < i < |ts| ==> ts[i - 1] + DownloadWindowMs <= ts[i]
  }

  /** No mail without a claim before it, no timestamp without a mail before it. */
  predicate EffectsOrdered(s: State, id: UserId)
  {
    CountOf(s.log, id, StampKind) <= CountOf(s.log, id, EmailKind) <= CountOf(s.log, id, ClaimKind)
  }

  /** The stored timestamps are a window apart, and the field holds the latest one. */
  predicate StampsSpaced(s: State, id: UserId)
  {
    var ts := StampTimes(s.log, id);
    Spaced(ts) && (ts != [] ==> LastDownload(s, id) == Some(ts[|ts| - 1]))
  }

  /** The clock does not run backwards within one request. */
  predicate ClockForward(op: Op)
  {
    op.RequestLink? ==> op.env.checkedAt <= op.env.now
  }

  lemma LogSnoc(log: seq<Event>, e: Event, id: UserId)
    ensures CountOf(log + [e], id, ClaimKind) == CountOf(log, id, ClaimKind) + Indicator(e, id, ClaimKind)
    ensures CountOf(log + [e], id, EmailKind) == CountOf(log, id, EmailKind) + Indicator(e, id, EmailKind)
    ensures CountOf(log + [e], id, StampKind) == CountOf(log, id, StampKind) + Indicator(e, id, StampKind)
    ensures StampTimes(log + [e], id) == StampTimes(log, id) + (if e.Stamped? && e.subject == id then [e.at] else [])
  {
  }

  // ---------------------------------------------------------------------------
  // The guards of one request

  /** A recorded attempt refuses the request before anything else happens. */
  lemma LimiterShortCircuit(base: string, s: State, user: User, env: RequestEnv)
    requires Attempts(s, user.id) >= 1
    ensures RequestDownloadLink(base, s, Some(user), env) == Step(Fail(MaxRateLimit), s)
  {
  }

  /** With no recorded attempt, a last download whose window ends strictly after the
      checked time refuses the request before the claim. */
  lemma DurableGuardRejects(base: string, s: State, user: User, env: RequestEnv)
    requires Attempts(s, user.id) == 0
    requires LastDownload(s, user.id).Some? && LastDownload(s, user.id).value + DownloadWindowMs > env.checkedAt
    ensures RequestDownloadLink(base, s, Some(user), env) == Step(Fail(MaxRateLimit), s)
  {
  }

  /** A request checked exactly one window after the last download passes the durable
      check (the comparison is strict) and reaches the claim: a refused claim answers
      with the claim's own error, a granted one is recorded. */
  lemma DurableGuardBoundary(base: string, s: State, user: User, env: RequestEnv)
    requires Attempts(s, user.id) == 0
    requires LastDownload(s, user.id) == Some(env.checkedAt - DownloadWindowMs)
    ensures env.claim.Fail? ==> RequestDownloadLink(base, s, Some(user), env) == Step(env.claim, s)
    ensures env.claim.Pass? ==>
              && Attempts(RequestDownloadLink(base, s, Some(user), env).next, user.id) == 1
              && RequestDownloadLink(base, s, Some(user), env).next.log[|s.log|] == Claimed(user.id)
  {
  }

  /** A refused claim is passed on unchanged and nothing is done. */
  lemma ClaimFailurePropagates(base: string, s: State, user: User, env: RequestEnv)
    requires Attempts(s, user.id) == 0 && !WithinWindow(s, user.id, env.checkedAt)
    requires env.claim.Fail?
    ensures RequestDownloadLink(base, s, Some(user), env) == Step(Fail(env.claim.error), s)
  {
  }

  /** A request succeeds exactly when there is a user, both guards pass and every
      collaborator succeeds; then the limiter holds one attempt and `lastAccountDownload`
      is the time taken after the claim. */
  lemma SuccessCharacterised(base: string, s: State, user: User, env: RequestEnv)
    ensures var r := RequestDownloadLink(base, s, Some(user), env);
            r.outcome.Pass? <==>
              && Attempts(s, user.id) == 0
              && !WithinWindow(s, user.id, env.checkedAt)
              && env.claim.Pass?
              && env.sign(DownloadClaims(user.id, env.jwtid)).Success?
              && env.organization.Success?
              && env.email.Pass?
              && env.update.Pass?
    ensures var r := RequestDownloadLink(base, s, Some(user), env);
            r.outcome.Pass? ==>
              && Attempts(r.next, user.id) == 1
              && LastDownload(r.next, user.id) == Some(env.now)
  {
  }

  /** Every non-success outcome of a request names its cause: the missing user, the
      rate limit, the claim's error, or a collaborator's failure. */
  lemma FailureCauses(base: string, s: State, caller: Option<User>, env: RequestEnv)
    ensures var r := RequestDownloadLink(base, s, caller, env);
            r.outcome.Fail? ==>
              || (caller.None? && r.outcome.error == MissingUser && r.next == s)
              || (r.outcome.error == MaxRateLimit && r.next == s)
              || (env.claim.Fail? && r.outcome == env.claim && r.next == s)
              || (r.outcome.error.External? && Attempts(r.next, caller.value.id) == 1)
    ensures caller.None? ==> RequestDownloadLink(base, s, caller, env) == Step(Fail(MissingUser), s)
    ensures RequestDownloadLink(base, s, caller, env).outcome == Fail(MissingUser) ==>
              caller.None? || env.claim == Fail(MissingUser)
  {
  }

  /** A mail that cannot be sent fails the request, keeps the claim and leaves
      `lastAccountDownload` alone. */
  lemma EmailFailureKeepsClaim(base: string, s: State, user: User, env: RequestEnv)
    requires Attempts(s, user.id) == 0 && !WithinWindow(s, user.id, env.checkedAt) && env.claim.Pass?
    requires env.sign(DownloadClaims(user.id, env.jwtid)).Success? && env.organization.Success?
    requires env.email.Fail?
    ensures var r := RequestDownloadLink(base, s, Some(user), env);
            && r.outcome == Fail(External(env.email.error))
            && Attempts(r.next, user.id) == 1
            && r.next.lastAccountDownload == s.lastAccountDownload
            && r.next.log[|s.log|..] == [Claimed(user.id)]
  {
  }

  /** A user update that fails after the mail went out fails the request with the
      update's own cause; the claim stays consumed, the mail stays sent, and
      `lastAccountDownload` is not written. */
  lemma UpdateFailureKeepsMail(base: string, s: State, user: User, env: RequestEnv)
    requires Attempts(s, user.id) == 0 && !WithinWindow(s, user.id, env.checkedAt) && env.claim.Pass?
    requires env.sign(DownloadClaims(user.id, env.jwtid)).Success? && env.organization.Success?
    requires env.email.Pass? && env.update.Fail?
    ensures var r := RequestDownloadLink(base, s, Some(user), env);
            && r.outcome == Fail(External(env.update.error))
            && Attempts(r.next, user.id) == 1
            && r.next.lastAccountDownload == s.lastAccountDownload
            && r.next.log[|s.log|..] == [Claimed(user.id), EmailSent(DownloadMail(base, user.id, env))]
  {
    var r := RequestDownloadLink(base, s, Some(user), env);
    assert r.next.log == s.log + [Claimed(user.id)] + [EmailSent(DownloadMail(base, user.id, env))];
  }

  /** The effects of one request are a prefix of: the claim, the mail of the landing
      link just generated (with the organisation name and the time taken after the
      claim), the timestamp of that time — all for the requesting user. */
  lemma EffectOrder(base: string, s: State, caller: Option<User>, env: RequestEnv)
    ensures var chunk := RequestDownloadLink(base, s, caller, env).next.log[|s.log|..];
            && |chunk| <= 3
            && (chunk != [] ==> caller.Some? && chunk[0] == Claimed(caller.value.id))
            && (|chunk| >= 2 ==>
                  && GenerateDownloadLinks(base, caller.value.id, env.jwtid, env.sign).Success?
                  && env.organization.Success?
                  && chunk[1] == EmailSent(DownloadMail(base, caller.value.id, env)))
            && (|chunk| == 3 ==> chunk[2] == Stamped(caller.value.id, env.now))
  {
    var r := RequestDownloadLink(base, s, caller, env);
    if r.next != s {
      var user := caller.value;
      var c := Claim(s, user.id);
      assert r == AfterClaim(base, c, user, env);
      var mail := AfterClaimShape(base, c, user, env);
      if r.next.log == c.log {
        assert r.next.log[|s.log|..] == [Claimed(user.id)];
      } else if r.next.log == c.log + [EmailSent(mail)] {
        assert r.next.log[|s.log|..] == [Claimed(user.id), EmailSent(mail)];
      } else {
        assert r.next.log[|s.log|..] == [Claimed(user.id), EmailSent(mail), Stamped(user.id, env.now)];
      }
    }
  }

  /** The mail a request sends carries the landing link signed for the requesting user:
      on the landing path of the base URL, with no query, and with the signer's token for
      the user's download claims as its fragment. A signed JWT never starts with '#', so
      the fragment is the token itself. */
  lemma MailedLandingLinkCarriesToken(base: string, s: State, user: User, env: RequestEnv)
    requires |RequestDownloadLink(base, s, Some(user), env).next.log| >= |s.log| + 2
    ensures env.sign(DownloadClaims(user.id, env.jwtid)).Success? && env.organization.Success?
    ensures var e := RequestDownloadLink(base, s, Some(user), env).next.log[|s.log| + 1];
            var token := env.sign(DownloadClaims(user.id, env.jwtid)).value;
            && e.EmailSent?
            && e.mail.recipient == user.id && e.mail.template == DownloadTemplate
            && e.mail.organizationName == env.organization.value && e.mail.now == env.now
            && e.mail.landing.base == base && e.mail.landing.path == LandingPath
            && e.mail.landing.query == []
            && (FragmentSafe(token) ==> e.mail.landing.fragment == Some(token))
  {
    EffectOrder(base, s, Some(user), env);
  }

  /** Right after a successful request, the same user's next request is refused by the
      limiter, whatever that request's inputs. */
  lemma SecondRequestRejected(base: string, s: State, user: User, env1: RequestEnv, env2: RequestEnv)
    requires RequestDownloadLink(base, s, Some(user), env1).outcome.Pass?
    ensures var s1 := RequestDownloadLink(base, s, Some(user), env1).next;
            RequestDownloadLink(base, s1, Some(user), env2) == Step(Fail(MaxRateLimit), s1)
  {
  }

  /** Even when the limiter has forgotten the claim, the stored timestamp refuses a
      second request checked less than a window after the first one's time. */
  lemma SecondRequestRejectedAfterExpiry(base: string, s: State, user: User, env1: RequestEnv, env2: RequestEnv)
    requires RequestDownloadLink(base, s, Some(user), env1).outcome.Pass?
    requires env2.checkedAt < env1.now + DownloadWindowMs
    ensures var s1 := Expire(RequestDownloadLink(base, s, Some(user), env1).next, user.id);
            RequestDownloadLink(base, s1, Some(user), env2) == Step(Fail(MaxRateLimit), s1)
  {
  }

  /** Only an administrator downloads, and gets exactly the file link that
      `generateDownloadLinks` builds for the user. */
  lemma DownloadGate(base: string, caller: Option<User>, userID: UserId, jwtid: string, sign: Signer)
    ensures !IsAdmin(caller) ==> Download(base, caller, userID, jwtid, sign) == Failure(NotAuthorized)
    ensures IsAdmin(caller) && sign(DownloadClaims(userID, jwtid)).Success? ==>
              Download(base, caller, userID, jwtid, sign)
                == Success(GenerateDownloadLinks(base, userID, jwtid, sign).value.file)
  {
  }

  /** A request at time `t` in which every collaborator succeeds. */
  function SampleEnv(t: int): RequestEnv
  {
    RequestEnv(t, Pass, t, "jti", (c: Claims) => Success("eyJ"), Success("Org"), Pass, Pass)
  }

  /** Read literally, the request checks the user document's top-level
      `lastAccountDownload` but stamps `metadata.lastAccountDownload`. Once the limiter
      forgets the first export, a second one a millisecond later succeeds too; with the
      two fields identified, as `RequestDownloadLink` has them, it is refused. */
  lemma AsWrittenSecondExportWithinWindow()
    ensures var user := User("u", "COMMENTER");
            var first := RequestDownloadLinkAsWritten("", State(map[], map[], []), Some(user), SampleEnv(0), map[]);
            var s1 := Expire(first.next, user.id);
            && first.outcome.Pass?
            && RequestDownloadLinkAsWritten("", s1, Some(user), SampleEnv(1), map[]).outcome.Pass?
            && RequestDownloadLink("", s1, Some(user), SampleEnv(1)).outcome == Fail(MaxRateLimit)
  {
  }

  // ---------------------------------------------------------------------------
  // One step, as seen by the counters

  /** The claim adds one attempt and one claim to the log, and nothing else. */
  lemma ClaimStep(s: State, user: UserId, id: UserId)
    ensures var t := Claim(s, user);
            && CountOf(t.log, id, ClaimKind) - CountOf(s.log, id, ClaimKind) == Attempts(t, id) - Attempts(s, id)
            && CountOf(t.log, id, EmailKind) == CountOf(s.log, id, EmailKind)
            && CountOf(t.log, id, StampKind) == CountOf(s.log, id, StampKind)
            && StampTimes(t.log, id) == StampTimes(s.log, id)
            && LastDownload(t, id) == LastDownload(s, id)
  {
  }

  /** After the claim, a request appends nothing, a mail to the requesting user, or that
      mail and then a timestamp of `now`; only the last writes `lastAccountDownload`. */
  lemma AfterClaimShape(base: string, s: State, user: User, env: RequestEnv) returns (mail: Email)
    ensures mail.recipient == user.id
    ensures GenerateDownloadLinks(base, user.id, env.jwtid, env.sign).Success? && env.organization.Success? ==>
              mail == DownloadMail(base, user.id, env)
    ensures var t := AfterClaim(base, s, user, env).next;
            || (t.log == s.log && t.lastAccountDownload == s.lastAccountDownload)
            || (t.log == s.log + [EmailSent(mail)] && t.lastAccountDownload == s.lastAccountDownload)
            || (&& t.log == s.log + [EmailSent(mail)] + [Stamped(user.id, env.now)]
                && t.lastAccountDownload == s.lastAccountDownload[user.id := env.now])
  {
    mail := Email(user.id, DownloadTemplate, Resolve(base, LandingPath), "", env.now);
    match GenerateDownloadLinks(base, user.id, env.jwtid, env.sign)
    case Failure(_) =>
    case Success(links) =>
      match env.organization
      case Failure(_) =>
      case Success(org) =>
        mail := Email(user.id, DownloadTemplate, links.landing, org, env.now);
  }

  /** After the claim, a request mails at most once, and only to the requesting user,
      and stamps at most once, and only after mailing. */
  lemma AfterClaimCounts(base: string, s: State, user: User, env: RequestEnv, id: UserId)
    ensures var t := AfterClaim(base, s, user, env).next;
            && CountOf(t.log, id, ClaimKind) == CountOf(s.log, id, ClaimKind)
            && CountOf(s.log, id, StampKind) <= CountOf(t.log, id, StampKind)
            && CountOf(t.log, id, StampKind) - CountOf(s.log, id, StampKind)
               <= CountOf(t.log, id, EmailKind) - CountOf(s.log, id, EmailKind)
            && CountOf(t.log, id, EmailKind) - CountOf(s.log, id, EmailKind) <= (if user.id == id then 1 else 0)
  {
    var t := AfterClaim(base, s, user, env).next;
    var mail := AfterClaimShape(base, s, user, env);
    if t.log != s.log {
      LogSnoc(s.log, EmailSent(mail), id);
      if t.log != s.log + [EmailSent(mail)] {
        LogSnoc(s.log + [EmailSent(mail)], Stamped(user.id, env.now), id);
      }
    }
  }

  /** After the claim, a request either leaves the user's timestamps alone or writes the
      time taken after the claim, both to the field and to the log. */
  lemma AfterClaimStamps(base: string, s: State, user: User, env: RequestEnv, id: UserId)
    ensures var t := AfterClaim(base, s, user, env).next;
            || (StampTimes(t.log, id) == StampTimes(s.log, id) && LastDownload(t, id) == LastDownload(s, id))
            || (&& user.id == id
                && StampTimes(t.log, id) == StampTimes(s.log, id) + [env.now]
                && LastDownload(t, id) == Some(env.now))
  {
    var t := AfterClaim(base, s, user, env).next;
    var mail := AfterClaimShape(base, s, user, env);
    if t.log != s.log {
      LogSnoc(s.log, EmailSent(mail), id);
      if t.log != s.log + [EmailSent(mail)] {
        LogSnoc(s.log + [EmailSent(mail)], Stamped(user.id, env.now), id);
      }
    }
  }

  /** What one request does to one user's counters and timestamps. */
  lemma RequestStep(base: string, s: State, caller: Option<User>, env: RequestEnv, id: UserId)
    ensures var t := RequestDownloadLink(base, s, caller, env).next;
            && CountOf(s.log, id, StampKind) <= CountOf(t.log, id, StampKind)
            && CountOf(t.log, id, StampKind) - CountOf(s.log, id, StampKind)
               <= CountOf(t.log, id, EmailKind) - CountOf(s.log, id, EmailKind)
            && CountOf(t.log, id, EmailKind) - CountOf(s.log, id, EmailKind)
               <= CountOf(t.log, id, ClaimKind) - CountOf(s.log, id, ClaimKind)
            && CountOf(t.log, id, ClaimKind) - CountOf(s.log, id, ClaimKind) == Attempts(t, id) - Attempts(s, id)
            && (Attempts(s, id) >= 1 ==> Attempts(t, id) == Attempts(s, id))
            && ((StampTimes(t.log, id) == StampTimes(s.log, id) && LastDownload(t, id) == LastDownload(s, id))
                || (&& StampTimes(t.log, id) == StampTimes(s.log, id) + [env.now]
                    && !WithinWindow(s, id, env.checkedAt)
                    && LastDownload(t, id) == Some(env.now)))
  {
    var r := RequestDownloadLink(base, s, caller, env);
    if r.next != s {
      var user := caller.value;
      var c := Claim(s, user.id);
      assert r == AfterClaim(base, c, user, env);
      ClaimStep(s, user.id, id);
      AfterClaimCounts(base, c, user, env, id);
      AfterClaimStamps(base, c, user, env, id);
    }
  }

  // ---------------------------------------------------------------------------
  // Runs of operations

  /** While the limiter's window for a user does not run out, the user's attempts never
      exceed one, and every claim recorded in the log is one the limiter counted: from
      no attempts, at most one claim is ever made. */
  lemma {:induction false} AtMostOneClaimPerWindow(base: string, s: State, ops: seq<Op>, id: UserId)
    requires Attempts(s, id) <= MaxAttempts
    requires forall i :: 0 <= i < |ops| ==> !(ops[i].LimiterExpiry? && ops[i].subject == id)
    ensures Attempts(Run(base, s, ops), id) <= MaxAttempts
    ensures CountOf(Run(base, s, ops).log, id, ClaimKind) - CountOf(s.log, id, ClaimKind)
            == Attempts(Run(base, s, ops), id) - Attempts(s, id)
    decreases |ops|
  {
    if ops != [] {
      var s1 := Apply(base, s, ops[0]);
      match ops[0] {
        case RequestLink(caller, env) => RequestStep(base, s, caller, env, id);
        case DownloadFile(_, _, _, _) =>
        case LimiterExpiry(_) =>
      }
      AtMostOneClaimPerWindow(base, s1, ops[1..], id);
    }
  }

  /** Over any run, no mail goes out for a user without a claim before it, and no
      timestamp is written without a mail before it. */
  lemma {:induction false} EffectsStayOrdered(base: string, s: State, ops: seq<Op>, id: UserId)
    requires EffectsOrdered(s, id)
    ensures EffectsOrdered(Run(base, s, ops), id)
    decreases |ops|
  {
    if ops != [] {
      var s1 := Apply(base, s, ops[0]);
      match ops[0] {
        case RequestLink(caller, env) => RequestStep(base, s, caller, env, id);
        case DownloadFile(_, _, _, _) =>
        case LimiterExpiry(_) =>
      }
      EffectsStayOrdered(base, s1, ops[1..], id);
    }
  }

  /** Appending a time at least a window after the last one keeps a sequence spaced. */
  lemma SpacedSnoc(ts: seq<int>, t: int)
    requires Spaced(ts)
    requires ts != [] ==> ts[|ts| - 1] + DownloadWindowMs <= t
    ensures Spaced(ts + [t])
  {
  }

  /** One request, whose clock does not run backwards, keeps a user's timestamps a
      window apart. */
  lemma RequestKeepsStampsSpaced(base: string, s: State, caller: Option<User>, env: RequestEnv, id: UserId)
    requires StampsSpaced(s, id)
    requires env.checkedAt <= env.now
    ensures StampsSpaced(RequestDownloadLink(base, s, caller, env).next, id)
  {
    var t := RequestDownloadLink(base, s, caller, env).next;
    RequestStep(base, s, caller, env, id);
    var ts := StampTimes(s.log, id);
    if StampTimes(t.log, id) != ts {
      SpacedSnoc(ts, env.now);
    }
  }

  /** One operation keeps a user's timestamps a window apart. */
  lemma StampsSpacedStep(base: string, s: State, op: Op, id: UserId)
    requires StampsSpaced(s, id)
    requires ClockForward(op)
    ensures StampsSpaced(Apply(base, s, op), id)
  {
    match op {
      case RequestLink(caller, env) => RequestKeepsStampsSpaced(base, s, caller, env, id);
      case DownloadFile(_, _, _, _) =>
      case LimiterExpiry(x) =>
        assert LastDownload(Apply(base, s, op), id) == LastDownload(s, id);
    }
  }

  /** Over any run, even one in which the limiter forgets its counts, the timestamps
      written for a user are at least seven days apart and the stored field is the
      latest of them. The durable check alone keeps successful exports a window apart,
      provided the field it reads (`user.lastAccountDownload`) is the one the request
      writes (`metadata.lastAccountDownload`); `AsWrittenSecondExportWithinWindow` shows
      the request read literally, where the two differ. */
  lemma {:induction false} StampsWindowApart(base: string, s: State, ops: seq<Op>, id: UserId)
    requires StampsSpaced(s, id)
    requires forall i :: 0 <= i < |ops| ==> ClockForward(ops[i])
    ensures StampsSpaced(Run(base, s, ops), id)
    decreases |ops|
  {
    if ops != [] {
      StampsSpacedStep(base, s, ops[0], id);
      StampsWindowApart(base, Apply(base, s, ops[0]), ops[1..], id);
    }
  }
}

=== FILE: wrappers.dfy ===
/** Failure-carrying datatypes shared by the model: an optional value, a value-or-error
    result, and a pass-or-error outcome for operations that return nothing. */
module Wrappers {

  datatype Option<+T> = None | Some(value: T)

  datatype Result<+T, +E> = Success(value: T) | Failure(error: E)

  datatype Outcome<+E> = Pass | Fail(error: E)
}
